=== FILE: README.md ===
# Track selector model

This project models the logic inside `src/StreamsSelector.jsx` of LosslessCut. That component is the table where the user picks which tracks (streams) of the main file and of the attached files are kept when exporting. The model covers:

- **One track row.** This is what the table shows for one stream:
  - the duration and bitrate that `parseInt` reads from the probe text;
  - the tag, resolution and channel cells;
  - the keep/drop icon and the dimming;
  - the (file path, stream index) pair that a click on the icon toggles.
- **The file header row.** Its caption is the path with the directory removed, computed by a regular-expression replacement.
- **The whole selector.** Rendering is skipped when there are no streams. The table body is ordered: the main file, then each attached file in key order. Optional sections appear:
  - the longest/shortest control;
  - the discard-or-extract prompt;
  - "Export each track".
- **The state the selector changes.** `removeFile` clears a path's copy flags and deletes its key from the attached files. Choosing a longest/shortest option sets the flag.

## Modules

- `JsNumbers` holds the JavaScript number model:
  - `parseInt(s, 10)`: the ECMAScript white-space and line-terminator characters are skipped, then an optional sign and the longest run of decimal digits are read; with no digit the result is NaN (`None`). The value is an exact integer (see "Left out" for where JavaScript's doubles differ).
  - `Number.isNaN`, which is true of NaN only and false for `undefined`.
  - The decimal text that a template literal gives an integer.
- `Streams` holds one track row.
  - `RowOf` builds the whole row from its parts: `GetFormatDuration`, `RowDuration`, `Bitrate`, `TagText`, `ResolutionText`, `ChannelsText`, `IconFor` and `Opacity`.
  - Empty fields follow React's rendering of falsy values: `undefined` renders nothing and `0` renders "0".
- `FileRows` holds the caption `path.replace(/.*\/([^/]+)$/, '$1')`.
  - `MatchAt` says when the pattern matches, with `.` stopping at line terminators.
  - `Basename` computes the replacement of the leftmost match.
- `StreamsSelector` holds the component.
  - `Render` produces the table body and the section flags from the props.
  - `WithoutPath` is the object-rest copy that drops one key.
  - The class `SelectorState` holds the state that `removeFile` and the control's `onChange` update.

The registry behind `isCopyingStreamId` is a parameter `isCopying`. So is `parseFloat`, which is only ever seen through its result: NaN, an infinity or a finite value. The `externalFiles` object is a sequence of entries with distinct keys, in the object's key order. `AsMap` gives the same object as a map.

The guard `!Number.isNaN(duration)` on the duration cell can never be false. The fallback from `getFormatDuration` is `undefined` or a number, never NaN, and `parseInt` only yields NaN when the fallback is used. So the cell is always rendered, even when no duration is known (`DurationCellAlwaysShown`).

## Model

| member | source | states |
|---|---|---|
| JsNumbers.IsNaN | src/StreamsSelector.jsx:30 | `Number.isNaN` holds only of NaN; it is false for `undefined`, finite numbers and the infinities |
| JsNumbers.LeadingWhiteSpace | src/StreamsSelector.jsx:28-29 | `parseInt` skips a run of white space only and stops at the first character that is not white space |
| JsNumbers.DigitPrefix | src/StreamsSelector.jsx:28-29 | the digits `parseInt` reads are a prefix of the text, all digits, and are followed by a non-digit or the end |
| JsNumbers.ParseIntOfParts | src/StreamsSelector.jsx:28-29 | white space, then digits, then anything not starting with a digit: the value of the digits |
| JsNumbers.ParseIntOfSignedParts | src/StreamsSelector.jsx:28-29 | the same with a `+` or `-` before the digits; only `-` negates |
| JsNumbers.ParseInt | src/StreamsSelector.jsx:28-29 | `parseInt(s, 10)` is NaN exactly when no digit follows the leading white space and optional sign; a negative result implies a leading `-` |
| JsNumbers.ParseIntOfUndefined | src/StreamsSelector.jsx:28-29 | an absent field, read as "undefined", parses to NaN |
| JsNumbers.IntToString | src/StreamsSelector.jsx:57 | the decimal text of an integer: a leading `-` iff it is negative, then a non-empty run of digits with no leading zero whose value is its magnitude (so 0 is "0", never "-0" or "00") |
| JsNumbers.DecimalDigits | src/StreamsSelector.jsx:57 | the decimal text of a natural number: non-empty, all digits, no leading zero, and its digits have that value |
| JsNumbers.FromInt | src/StreamsSelector.jsx:29 | an integer read by `parseInt` becomes a finite number with exactly that value |
| JsNumbers.ParseIntOfIntToString | src/StreamsSelector.jsx:57 | `parseInt` of the decimal text of `n`, followed by any non-digit text, gives back `n` |
| JsNumbers.ParseIntOfDecimalFraction | src/StreamsSelector.jsx:29 | `parseInt` stops at a decimal point: `"<n>.<fraction>"` gives `n` |
| Streams.ParseIntField | src/StreamsSelector.jsx:28-29 | `parseInt(field, 10)` of a probe field; an absent field reaches it as "undefined" and gives NaN |
| Streams.IsTruthyText | src/StreamsSelector.jsx:86 | a text field is falsy when absent or "", and truthy when it holds a non-empty text |
| Streams.IsTruthyNumber | src/StreamsSelector.jsx:57 | a number field is falsy when absent or 0, and truthy when it holds any other integer |
| Streams.GetFormatDuration | src/StreamsSelector.jsx:85-90 | `undefined` iff format data is missing, its duration is falsy, or `parseFloat` gives NaN; otherwise the parsed number; never NaN |
| Streams.RowDuration | src/StreamsSelector.jsx:29-30 | the parsed whole seconds of the track duration when `parseInt` succeeds, the file-level duration when it fails; NaN only if the file duration is |
| Streams.RowDurationTruncates | src/StreamsSelector.jsx:29-30 | a track duration such as "12.5" gives its whole seconds, whatever the file duration |
| Streams.RowDurationFallsBack | src/StreamsSelector.jsx:29-30 | a track with no duration of its own shows the file-level duration |
| Streams.RowDurationOfUnparsable | src/StreamsSelector.jsx:29-30 | a present track duration with no digits after its white space and sign ("", "N/A") also falls back to the file-level duration |
| Streams.DurationCellAlwaysShown | src/StreamsSelector.jsx:54 | with the fallback from `getFormatDuration`, the duration cell's NaN guard always holds |
| Streams.Bitrate | src/StreamsSelector.jsx:28 | the bitrate cell's value: `parseInt(bit_rate, 10)`, the cell being empty when that is NaN |
| Streams.BitrateOfText | src/StreamsSelector.jsx:28 | a decimal `bit_rate` text gives the bitrate cell that number |
| Streams.BitrateOfAbsent | src/StreamsSelector.jsx:56 | no `bit_rate` leaves the bitrate cell empty |
| Streams.TagText | src/StreamsSelector.jsx:52 | the tag cell shows `codec_tag_string` iff `codec_tag` is not "0x0000" and the string is present |
| Streams.FalsyText | src/StreamsSelector.jsx:57 | a falsy number renders as nothing when it is `undefined` and as "0" when it is 0 |
| Streams.ResolutionText | src/StreamsSelector.jsx:57 | with width and height both truthy the text is `${width}x${height}`; otherwise it is what React renders for the first falsy one; an `x` appears iff both are truthy |
| Streams.ResolutionTextReadsBack | src/StreamsSelector.jsx:57 | `parseInt` of a shown resolution gives back the width, and of the text after its `x` gives back the height |
| Streams.ChannelsText | src/StreamsSelector.jsx:57 | with a truthy channel count the text is `${channels}c`; otherwise what React renders for the falsy count; a `c` appears iff the count is truthy |
| Streams.ChannelsTextReadsBack | src/StreamsSelector.jsx:57 | `parseInt` of a shown channel text gives back the channel count |
| Streams.IconFor | src/StreamsSelector.jsx:32-41 | the icon is a keep icon iff the track is copied |
| Streams.IconOfKept | src/StreamsSelector.jsx:32-41 | a kept track shows `FaVolumeUp` (audio), `FaVideo` (video), `MdSubtitles` (subtitle) or `GoFileBinary` (any other type) |
| Streams.IconOfDropped | src/StreamsSelector.jsx:32-41 | a dropped track shows `FaVolumeMute` (audio), `FaVideoSlash` (video) or `FaBan` (any other type) |
| Streams.IconIdentifiesRow | src/StreamsSelector.jsx:32-41 | equal icons mean equal copy flags, and for copied tracks the same audio/video/subtitle/other kind |
| Streams.Opacity | src/StreamsSelector.jsx:48 | the row is dimmed iff the track is not copied, and then its opacity is 0.4 |
| Streams.RowOf | src/StreamsSelector.jsx:25-61 | a row toggles its own (file path, stream index); its icon, opacity, duration, bitrate, tag, resolution and channel cells are those of `IconFor`, `Opacity`, `RowDuration`, `Bitrate`, `TagText`, `ResolutionText` and `ChannelsText`; it shows the keep icon iff copied, is dimmed iff not copied, and shows its duration cell whenever the duration is not NaN |
| FileRows.MatchAt | src/StreamsSelector.jsx:69 | where `/.*\/([^/]+)$/` matches: from a start through a `/` with no line terminator between, and a non-empty `/`-free rest up to the end |
| FileRows.Basename | src/StreamsSelector.jsx:69 | the caption: never longer than the path, and different from it only when the path has a `/` before its last character |
| FileRows.LastIndexOf | src/StreamsSelector.jsx:69 | the index of the last `/`, with no `/` after it, or none when the path has no `/` |
| FileRows.LineStart | src/StreamsSelector.jsx:69 | the start of the line that holds an index: no line terminator between, and a line terminator just before |
| FileRows.NoMatchWithoutFinalName | src/StreamsSelector.jsx:69 | the pattern cannot match a path without `/` or one ending in `/` |
| FileRows.MatchWithFinalName | src/StreamsSelector.jsx:69 | a path with a `/` before its last character always matches |
| FileRows.BasenameWithoutMatch | src/StreamsSelector.jsx:69 | when nothing matches, the caption is the path unchanged |
| FileRows.BasenameOfLeftmostMatch | src/StreamsSelector.jsx:69 | the caption replaces the leftmost match (from its start through the last `/`) by the text after that `/` |
| FileRows.BasenameOfSingleLinePath | src/StreamsSelector.jsx:69 | for a single-line `dir/name` whose name is non-empty and has no `/`, the caption is `name` |
| StreamsSelector.AsMap | src/StreamsSelector.jsx:100 | the `externalFiles` object as a map from path to file |
| StreamsSelector.WithoutPath | src/StreamsSelector.jsx:94-97 | `const { [path]: val, ...rest } = old`: the entries whose key is not `path`, in order |
| StreamsSelector.WithoutPathMembers | src/StreamsSelector.jsx:94-97 | the copy without a key holds exactly the entries whose key differs |
| StreamsSelector.WithoutPathAsMap | src/StreamsSelector.jsx:94-97 | as a map, the copy is the old object with that one key removed; every other key keeps its value |
| StreamsSelector.WithoutPathDistinct | src/StreamsSelector.jsx:94-97 | the copy still has distinct keys |
| StreamsSelector.WithoutAbsentPath | src/StreamsSelector.jsx:94-97 | removing a key that is not there leaves the entries as they were |
| StreamsSelector.WithoutPathAppend | src/StreamsSelector.jsx:94-97 | removing a key from two runs of entries removes it from each run |
| StreamsSelector.WithoutPathRemovesOne | src/StreamsSelector.jsx:94-97 | removing the key of an entry drops that entry only, keeping the order of the rest |
| StreamsSelector.WithoutPathPathSet | src/StreamsSelector.jsx:94-97 | the removed key is no longer a key |
| StreamsSelector.LengthControlValue | src/StreamsSelector.jsx:162 | the control shows one of its two options, and shows `shortest` iff the flag is set |
| StreamsSelector.ShortestFlagOf | src/StreamsSelector.jsx:163 | the flag an option sets; for either option, the control then shows the option chosen |
| StreamsSelector.LengthControlReadsBack | src/StreamsSelector.jsx:160-163 | choosing the displayed option keeps the flag as it was |
| StreamsSelector.Render | src/StreamsSelector.jsx:83-184 | nothing iff the streams are falsy; the control is shown iff there are attached files and reads "shortest" iff the flag is set; the prompt is shown iff there are non-copied extra streams; "Export each track" is shown iff there are no attached files; the first row is the main file's header, with no trash button; the track rows, top to bottom, are the main file's streams as `RowOf` with `getFormatDuration(mainFileFormatData)` as duration fallback, then each attached file's streams, in key order, with `getFormatDuration` of that file's own `formatData` (`FileRowsOf`, `EntryRows`) |
| StreamsSelector.TrackRows | src/StreamsSelector.jsx:125-133 | one row per stream, in array order: the k-th row is `RowOf` the k-th stream, with that file's path and the registry's flag for (path, index) |
| StreamsSelector.FileSection | src/StreamsSelector.jsx:123-149 | a file's header (title the path, caption its basename, a trash button iff the file is removable) followed by one track row per stream, in order: the row `RowOf` that stream, with that file's path, the registry's flag for (path, index) and that file's own `getFormatDuration` fallback |
| StreamsSelector.ExternalSections | src/StreamsSelector.jsx:135-151 | for each attached file in key order, a spacer row and that file's section with a trash button; its track rows are each file's streams as `RowOf` with that file's path, the registry's flag and `getFormatDuration` of that file's own `formatData` |
| StreamsSelector.FileSectionShown | src/StreamsSelector.jsx:123-133 | the track rows of a file's section show exactly `FileRowsOf` that file with its own format data |
| StreamsSelector.StreamTargetsAt | src/StreamsSelector.jsx:125-133 | a file's rows, one per stream in array order, toggle (that file's path, that stream's index) |
| StreamsSelector.StreamTargetsPath | src/StreamsSelector.jsx:130 | every toggle target of a file's rows names that file's path |
| StreamsSelector.TrackRowsTargets | src/StreamsSelector.jsx:125-133 | the track rows of one file toggle exactly its stream targets, in order |
| StreamsSelector.TrackRowsNoTrash | src/StreamsSelector.jsx:125-133 | track rows carry no trash button |
| StreamsSelector.TrackRowsShowRegistry | src/StreamsSelector.jsx:125-133 | each track row's icon and opacity follow the registry's flag for its own (path, index) |
| StreamsSelector.ExternalSectionsTargets | src/StreamsSelector.jsx:135-151 | the attached files' rows toggle each file's stream targets, files in key order |
| StreamsSelector.ExternalSectionsTrash | src/StreamsSelector.jsx:139 | the attached files' trash buttons name each file's own path, in key order |
| StreamsSelector.ExternalSectionsShowRegistry | src/StreamsSelector.jsx:141-149 | each attached file's track rows follow the registry's flag for that file's path |
| StreamsSelector.RowOrderAndTargets | src/StreamsSelector.jsx:123-151 | the rows toggle the main file's targets first, then the attached files' targets in key order; the trash buttons are exactly the attached paths in key order |
| StreamsSelector.RowsShowRegistry | src/StreamsSelector.jsx:125-149 | every track row shows the keep icon and full opacity exactly when the registry copies its own (path, index), and shows its duration cell |
| StreamsSelector.PathsMatchPathSet | src/StreamsSelector.jsx:100 | the ordered keys and the key set hold the same paths |
| StreamsSelector.EntryTargetsPaths | src/StreamsSelector.jsx:146 | every target of an attached file's row names a key of `externalFiles` |
| StreamsSelector.RemovedFileLeavesNoRows | src/StreamsSelector.jsx:92-98 | after `removeFile(p)`, with `p` not the main path, no row toggles `p` and no trash button names `p` |
| StreamsSelector.RemovingLastFileRestoresExport | src/StreamsSelector.jsx:155-184 | removing the only attached file hides the longest/shortest control and shows "Export each track" |
| StreamsSelector.SelectorState.constructor | src/StreamsSelector.jsx:76-78 | the state holds the given copy flags, attached files and flag |
| StreamsSelector.SelectorState.RemoveFile | src/StreamsSelector.jsx:92-98 | the path's copy flags become empty; its key leaves `externalFiles`, which as a map loses exactly that key; the entry at that key is dropped and the others keep their order; an absent key leaves the entries as they were; the flag is unchanged |
| StreamsSelector.SelectorState.ChooseLengthOption | src/StreamsSelector.jsx:163 | the flag becomes "the chosen value is `shortest`", the control then shows the chosen option, and nothing else changes |

## Left out

- JSX layout, icon components, CSS, `memo` and `Fragment` are presentation only. The model keeps the values shown and the icon chosen, not the markup.
- The info dialogs (`onInfoClick`, `ReactSwal.fire`, `JSON.stringify`) are I/O.
- Localised texts from `t(...)` are left out.
- The fps cell is not modelled. `formatDuration` (in `src/util`) and `getStreamFps` (in `src/ffmpeg`) are not part of this model.
- For the duration cell, only the duration value and whether the cell appears are modelled, not its formatted text.
- Streams.Bitrate: only the parsed bit rate and whether the cell appears are modelled. The text `(bitrate / 1e6).toFixed(1)` is floating-point formatting.
- Streams.GetFormatDuration: `parseFloat` is a parameter, because its numeric reading of a decimal text is floating-point work.
- The registry is a parameter `isCopying`, since its storage lives outside the component. `toggleCopyStreamId` appears only as the (path, index) pair each row toggles.
- StreamsSelector.SelectorState.RemoveFile: it assumes that `setCopyStreamIdsForPath(path, f)` stores `f`'s result for `path`.
- `nonCopiedExtraStreams` arrives already computed; only its emptiness is read.
- `showAddStreamSourceDialog`, `onExtractAllStreamsPress` and `AutoExportToggler` are external actions.
- The `async` on `removeFile` adds nothing, because nothing is awaited.
- JsNumbers.FromInt: numbers are exact integers and reals. JavaScript rounds `parseInt` values above 2^53 to the nearest double and gives `Infinity` for values beyond the largest double (about 309 digits or more); the model keeps the exact integer. `-0` from `parseInt("-0")` is the model's 0.
- JsNumbers.ParseInt: the same limits as FromInt apply to the value it returns; which texts give NaN is as in JavaScript.
- JsNumbers.IntToString: the exponent notation that a template literal uses from 10^21 upward is not modelled.
- StreamsSelector.AsMap: JavaScript lists integer-like keys first in ascending order. The model keeps plain insertion order, which is the order for file paths.
- React state batching and re-rendering are not modelled. `RemoveFile` applies both state updates at once.

=== FILE: FileRows.dfy ===
/**
 * The header row of a file in the track table: its label is the path with
 * everything up to the last `/` removed, as
 * `path.replace(/.*\/([^/]+)$/, '$1')` computes it.
 */
module FileRows {
  import opened Wrappers
  import opened JsNumbers

  /**
   * The pattern `.*\/([^/]+)$` (no flags) matches `s` from index `i`, its `/`
   * at index `j`: `.` never crosses a line terminator, `[^/]+` runs from just
   * after `j` to the end of the input.
   */
  ghost predicate MatchAt(s: string, i: int, j: int)
  {
    && 0 <= i <= j < |s| - 1
    && s[j] == '/'
    && (forall k :: i <= k < j ==> !IsLineTerminator(s[k]))
    && (forall k :: j < k < |s| ==> s[k] != '/')
  }

  /** The index of the last `c` in `s`. */
  function LastIndexOf(s: string, c: char): (r: Option<nat>)
    ensures r.None? ==> forall k :: 0 <= k < |s| ==> s[k] != c
    ensures r.Some? ==> r.value < |s| && s[r.value] == c
    ensures r.Some? ==> forall k :: r.value < k < |s| ==> s[k] != c
  {
    if s == [] then None
    else if s[|s| - 1] == c then Some(|s| - 1)
    else LastIndexOf(s[..|s| - 1], c)
  }

  /** The start of the line that holds index `j`: just after the last line terminator before `j`. */
  function LineStart(s: string, j: nat): (i: nat)
    requires j <= |s|
    ensures i <= j
    ensures forall k :: i <= k < j ==> !IsLineTerminator(s[k])
    ensures i > 0 ==> IsLineTerminator(s[i - 1])
  {
    if j == 0 || IsLineTerminator(s[j - 1]) then j else LineStart(s, j - 1)
  }

  /**
   * The label of a file row: the replacement of the leftmost match of
   * `.*\/([^/]+)$` by its group, or the path unchanged when nothing matches.
   */
  function Basename(path: string): (r: string)
    ensures |r| <= |path|
    ensures r != path ==> '/' in path && path[|path| - 1] != '/'
  {
    match LastIndexOf(path, '/')
    case None => path
    case Some(j) =>
      if j == |path| - 1 then path
      else
        var i := LineStart(path, j);
        path[..i] + path[j + 1..]
  }

  /** The pattern matches nowhere when there is no `/`, or when the path ends with `/`. */
  lemma NoMatchWithoutFinalName(path: string)
    requires '/' !in path || path[|path| - 1] == '/'
    ensures forall i, j :: !MatchAt(path, i, j)
  {
  }

  /** A `/` before the last character always gives a match. */
  lemma MatchWithFinalName(path: string)
    requires '/' in path && path[|path| - 1] != '/'
    ensures exists i, j :: MatchAt(path, i, j)
  {
    var j := LastIndexOf(path, '/').value;
    assert MatchAt(path, LineStart(path, j), j);
  }

  /** Without a match the path is shown unchanged. */
  lemma BasenameWithoutMatch(path: string)
    requires forall i, j :: !MatchAt(path, i, j)
    ensures Basename(path) == path
  {
    match LastIndexOf(path, '/')
    case None =>
    case Some(j) =>
      if j < |path| - 1 {
        var i := LineStart(path, j);
        assert MatchAt(path, i, j);
      }
  }

  /**
   * With a match, the leftmost one (start `i`, slash `j`) is replaced by the
   * text after the slash.
   */
  lemma BasenameOfLeftmostMatch(path: string, i: int, j: int)
    requires MatchAt(path, i, j)
    requires forall i', j' :: 0 <= i' < i ==> !MatchAt(path, i', j')
    ensures Basename(path) == path[..i] + path[j + 1..]
  {
    var last := LastIndexOf(path, '/');
    assert last == Some(j);
    var start := LineStart(path, j);
    assert MatchAt(path, start, j);
  }

  /**
   * For a path on one line, the label is the text after the last `/`; that
   * text has no `/` and the path is its directory, a `/` and the label.
   */
  lemma BasenameOfSingleLinePath(dir: string, name: string)
    requires name != [] && '/' !in name
    requires forall k :: 0 <= k < |dir| ==> !IsLineTerminator(dir[k])
    ensures Basename(dir + "/" + name) == name
  {
    var path := dir + "/" + name;
    assert MatchAt(path, 0, |dir|);
    assert path[|dir| + 1..] == name;
    BasenameOfLeftmostMatch(path, 0, |dir|);
  }
}

=== FILE: JsNumbers.dfy ===
/**
 * The parts of JavaScript's number handling that the stream table relies on:
 * `parseInt(s, 10)`, `Number.isNaN`, and the decimal text of an integer as a
 * template literal produces it.
 */
module JsNumbers {
  import opened Wrappers

  /** A JavaScript number (an IEEE double), seen only as NaN, an infinity or a finite value. */
  datatype JsNumber = NaN | Infinity(negative: bool) | Finite(value: real)

  /** A JavaScript value that is `undefined` or a number. */
  datatype JsValue = Undefined | Number(n: JsNumber)

  /** `Number.isNaN(v)`: true of the number NaN only; `undefined` is not NaN. */
  predicate IsNaN(v: JsValue): (nan: bool)
    ensures nan ==> v == Number(NaN)
    ensures v.Undefined? || v.n.Finite? || v.n.Infinity? ==> !nan
  {
    v.Number? && v.n.NaN?
  }

  /** The integer `n` as a JavaScript number. */
  function FromInt(n: int): (v: JsValue)
    ensures v.Number? && v.n.Finite? && v.n.value == n as real
  {
    Number(Finite(n as real))
  }

  /** LineTerminator of ECMAScript: LF, CR, LINE SEPARATOR, PARAGRAPH SEPARATOR. */
  predicate IsLineTerminator(c: char)
  {
    c == '\n' || c == '\r' || c == '\U{2028}' || c == '\U{2029}'
  }

  /**
   * StrWhiteSpaceChar of ECMAScript: TAB, VT, FF, ZWNBSP, the space separators
   * (Unicode category Zs) and the line terminators.
   */
  const WhiteSpaceChars: set<char> :=
    {'\t', '\U{000B}', '\U{000C}', '\U{FEFF}', ' ', '\U{00A0}', '\U{1680}',
     '\U{2000}', '\U{2001}', '\U{2002}', '\U{2003}', '\U{2004}', '\U{2005}',
     '\U{2006}', '\U{2007}', '\U{2008}', '\U{2009}', '\U{200A}',
     '\U{202F}', '\U{205F}', '\U{3000}',
     '\n', '\r', '\U{2028}', '\U{2029}'}

  predicate IsWhiteSpace(c: char)
  {
    c in WhiteSpaceChars
  }

  predicate IsDigit(c: char)
  {
    '0' <= c <= '9'
  }

  predicate AllDigits(s: string)
  {
    forall k :: 0 <= k < |s| ==> IsDigit(s[k])
  }

  predicate AllWhiteSpace(s: string)
  {
    forall k :: 0 <= k < |s| ==> IsWhiteSpace(s[k])
  }

  /** `s` is empty or does not begin with a decimal digit. */
  predicate NoLeadingDigit(s: string)
  {
    s == [] || !IsDigit(s[0])
  }

  /** The number of white-space characters at the start of `s`. */
  function LeadingWhiteSpace(s: string): (n: nat)
    ensures n <= |s| && AllWhiteSpace(s[..n])
    ensures n == |s| || !IsWhiteSpace(s[n])
  {
    if |s| > 0 && IsWhiteSpace(s[0]) then
      var n := 1 + LeadingWhiteSpace(s[1..]);
      assert s[..n] == [s[0]] + s[1..][..n - 1];
      n
    else 0
  }

  /** `s` without its leading white space, where `parseInt` starts reading. */
  function TrimStart(s: string): string
  {
    s[LeadingWhiteSpace(s)..]
  }

  /** The text after an optional leading `+` or `-`. */
  function Unsigned(t: string): string
  {
    if |t| > 0 && (t[0] == '-' || t[0] == '+') then t[1..] else t
  }

  /** The longest prefix of `s` made of decimal digits. */
  function DigitPrefix(s: string): (r: string)
    ensures r <= s && AllDigits(r)
    ensures NoLeadingDigit(s[|r|..])
  {
    if |s| > 0 && IsDigit(s[0]) then [s[0]] + DigitPrefix(s[1..]) else []
  }

  function DigitValue(c: char): nat
    requires IsDigit(c)
  {
    c as int - '0' as int
  }

  /** The value of a string of decimal digits, most significant first. */
  function DigitsValue(ds: string): nat
    requires AllDigits(ds)
  {
    if ds == [] then 0 else DigitsValue(ds[..|ds| - 1]) * 10 + DigitValue(ds[|ds| - 1])
  }

  function Signed(negative: bool, magnitude: nat): int
  {
    if negative then -(magnitude as int) else magnitude
  }

  /**
   * JavaScript `parseInt(s, 10)`: skip leading white space, take an optional
   * sign, then the longest run of decimal digits; NaN (here `None`) when that
   * run is empty. Whatever follows the digits is ignored.
   */
  function ParseInt(s: string): (r: Option<int>)
    ensures r.None? <==> NoLeadingDigit(Unsigned(TrimStart(s)))
    ensures r.Some? && r.value < 0 ==> TrimStart(s)[0] == '-'
  {
    var t := TrimStart(s);
    var ds := DigitPrefix(Unsigned(t));
    if ds == [] then None else Some(Signed(t[0] == '-', DigitsValue(ds)))
  }

  function DigitChar(d: nat): (c: char)
    requires d < 10
    ensures IsDigit(c) && DigitValue(c) == d
  {
    ('0' as int + d) as char
  }

  /** The decimal digits of `n`, without leading zeros. */
  function DecimalDigits(n: nat): (s: string)
    ensures s != [] && AllDigits(s) && DigitsValue(s) == n
    ensures |s| > 1 ==> s[0] != '0'
  {
    if n < 10 then [DigitChar(n)]
    else
      var s := DecimalDigits(n / 10) + [DigitChar(n % 10)];
      assert s[..|s| - 1] == DecimalDigits(n / 10);
      s
  }

  /** `${n}` for an integer-valued number `n` (below 10^21 in magnitude in JavaScript). */
  function IntToString(n: int): (s: string)
    ensures s != [] && (IsDigit(s[0]) || s[0] == '-')
    ensures n < 0 <==> s[0] == '-'
    ensures var ds := if n < 0 then s[1..] else s;
              ds != [] && AllDigits(ds) && DigitsValue(ds) == (if n < 0 then -n else n) &&
              (|ds| > 1 ==> ds[0] != '0')
  {
    if n < 0 then ['-'] + DecimalDigits(-n) else DecimalDigits(n)
  }

  /** Concatenation regroups freely; kept apart so the proofs that use it stay small. */
  lemma Associative(a: string, b: string, c: string)
    ensures a + b + c == a + (b + c)
  {
  }

  lemma Associative4(a: string, b: string, c: string, d: string)
    ensures a + b + c + d == a + (b + c + d)
    ensures b != [] ==> (b + c + d)[0] == b[0]
  {
  }

  /** A sign is not white space, so `parseInt` never skips it. */
  lemma SignIsNotWhiteSpace(c: char)
    requires c == '-' || c == '+'
    ensures !IsWhiteSpace(c)
  {
  }

  /** A digit is not white space, so `parseInt` never skips it. */
  lemma DigitIsNotWhiteSpace(c: char)
    requires IsDigit(c)
    ensures !IsWhiteSpace(c)
  {
  }

  /** The digit prefix of digits followed by a non-digit is exactly those digits. */
  lemma {:induction false} DigitPrefixOfDigits(ds: string, rest: string)
    requires AllDigits(ds) && NoLeadingDigit(rest)
    ensures DigitPrefix(ds + rest) == ds
  {
    if ds != [] {
      assert (ds + rest)[1..] == ds[1..] + rest;
      DigitPrefixOfDigits(ds[1..], rest);
    }
  }

  /** White space followed by a non-space: exactly the white space is skipped. */
  lemma {:induction false} LeadingWhiteSpaceOf(ws: string, t: string)
    requires AllWhiteSpace(ws)
    requires t == [] || !IsWhiteSpace(t[0])
    ensures LeadingWhiteSpace(ws + t) == |ws|
  {
    if ws != [] {
      assert (ws + t)[1..] == ws[1..] + t;
      LeadingWhiteSpaceOf(ws[1..], t);
    }
  }

  /**
   * `parseInt` reads white space and a run of digits, and ignores whatever
   * comes after the digits.
   */
  lemma ParseIntOfParts(ws: string, ds: string, rest: string)
    requires AllWhiteSpace(ws)
    requires ds != [] && AllDigits(ds) && NoLeadingDigit(rest)
    ensures ParseInt(ws + ds + rest) == Some(DigitsValue(ds))
  {
    var t := ds + rest;
    Associative(ws, ds, rest);
    DigitIsNotWhiteSpace(t[0]);
    ParseIntOfUnsignedDigits(ds, rest);
    ParseIntAfterWhiteSpace(ws, t);
  }

  /** The same with a sign before the digits; only `-` negates. */
  lemma ParseIntOfSignedParts(ws: string, sign: char, ds: string, rest: string)
    requires AllWhiteSpace(ws)
    requires sign == '-' || sign == '+'
    requires ds != [] && AllDigits(ds) && NoLeadingDigit(rest)
    ensures ParseInt(ws + [sign] + ds + rest) == Some(Signed(sign == '-', DigitsValue(ds)))
  {
    var t := [sign] + ds + rest;
    Associative4(ws, [sign], ds, rest);
    SignIsNotWhiteSpace(sign);
    ParseIntOfSignedDigits(sign, ds, rest);
    ParseIntAfterWhiteSpace(ws, t);
  }

  /** Text that does not start with white space is its own trimmed form. */
  lemma TrimStartOfUntrimmed(s: string)
    requires s != [] && !IsWhiteSpace(s[0])
    ensures TrimStart(s) == s
  {
  }

  /** Digits at the very start are read up to the first non-digit. */
  lemma ParseIntOfUnsignedDigits(ds: string, rest: string)
    requires ds != [] && AllDigits(ds) && NoLeadingDigit(rest)
    ensures ParseInt(ds + rest) == Some(DigitsValue(ds))
  {
    var s := ds + rest;
    assert s[0] == ds[0];
    TrimStartOfUntrimmed(s);
    assert Unsigned(s) == s;
    DigitPrefixOfDigits(ds, rest);
  }

  /** A sign at the very start, then digits: `-` negates, `+` does not. */
  lemma ParseIntOfSignedDigits(sign: char, ds: string, rest: string)
    requires sign == '-' || sign == '+'
    requires ds != [] && AllDigits(ds) && NoLeadingDigit(rest)
    ensures ParseInt([sign] + ds + rest) == Some(Signed(sign == '-', DigitsValue(ds)))
  {
    var s := [sign] + ds + rest;
    assert s[0] == sign && s[1..] == ds + rest;
    TrimStartOfUntrimmed(s);
    DigitPrefixOfDigits(ds, rest);
  }

  /** Leading white space does not change what `parseInt` reads. */
  lemma ParseIntAfterWhiteSpace(ws: string, t: string)
    requires AllWhiteSpace(ws)
    requires t != [] && !IsWhiteSpace(t[0])
    ensures ParseInt(ws + t) == ParseInt(t)
  {
    LeadingWhiteSpaceOf(ws, t);
    TrimStartOfUntrimmed(t);
    assert TrimStart(ws + t) == t;
  }

  /** Printing an integer and parsing it back gives the integer, whatever text follows. */
  lemma ParseIntOfIntToString(n: int, rest: string)
    requires NoLeadingDigit(rest)
    ensures ParseInt(IntToString(n) + rest) == Some(n)
  {
    if n < 0 {
      ParseIntOfSignedDigits('-', DecimalDigits(-n), rest);
    } else {
      ParseIntOfUnsignedDigits(DecimalDigits(n), rest);
    }
  }

  /** An absent field reaches `parseInt` as the text "undefined", which has no digits. */
  lemma ParseIntOfUndefined()
    ensures ParseInt("undefined") == None
  {
    var u := "undefined";
    assert u[0] == 'u';
    TrimStartOfUntrimmed(u);
    assert Unsigned(u) == u;
  }

  /** `parseInt` stops at the decimal point: "12.5" gives 12. */
  lemma ParseIntOfDecimalFraction(n: int, fraction: string)
    ensures ParseInt(IntToString(n) + "." + fraction) == Some(n)
  {
    Associative(IntToString(n), ".", fraction);
    assert ("." + fraction)[0] == '.';
    ParseIntOfIntToString(n, "." + fraction);
  }
}

=== FILE: Streams.dfy ===
/**
 * One row of the track table: the values derived from one track's probe
 * metadata (duration, bitrate, tag, resolution, channels), the icon and
 * opacity that show whether the track is kept, and the (file, track) pair a
 * click on the icon toggles.
 */
module Streams {
  import opened Wrappers
  import opened JsNumbers

  /**
   * A track as the probing tool reports it. Numeric text fields arrive as
   * strings or are absent; width, height and channels arrive as numbers.
   */
  datatype Stream = Stream(
    index: int,
    codecType: Option<string>,
    codecName: Option<string>,
    codecTag: Option<string>,
    codecTagString: Option<string>,
    duration: Option<string>,
    nbFrames: Option<string>,
    bitRate: Option<string>,
    width: Option<int>,
    height: Option<int>,
    channels: Option<int>,
    channelLayout: Option<string>)

  /** The container-level metadata of a file; only its duration text is read here. */
  datatype FormatData = FormatData(duration: Option<string>)

  /** `parseInt(field, 10)`: an absent field reaches `parseInt` as the text "undefined". */
  function ParseIntField(field: Option<string>): (r: Option<int>)
    ensures field.None? ==> r.None?
  {
    ParseIntOfUndefined();
    ParseInt(if field.Some? then field.value else "undefined")
  }

  /** JavaScript truthiness of a string field: absent and "" are falsy. */
  predicate IsTruthyText(field: Option<string>): (truthy: bool)
    ensures field == None || field == Some("") ==> !truthy
    ensures field.Some? && |field.value| > 0 ==> truthy
  {
    field.Some? && field.value != ""
  }

  /** JavaScript truthiness of a number field: absent and 0 are falsy. */
  predicate IsTruthyNumber(field: Option<int>): (truthy: bool)
    ensures field == None || field == Some(0) ==> !truthy
    ensures field.Some? && (field.value < 0 || field.value > 0) ==> truthy
  {
    field.Some? && field.value != 0
  }

  /**
   * The file-level duration: `undefined` when there is no format data, when
   * its duration is falsy, or when `parseFloat` gives NaN; otherwise the
   * parsed number. `parseFloat` is a parameter: only its result is modelled.
   */
  function GetFormatDuration(formatData: Option<FormatData>, parseFloat: string -> JsNumber): (r: JsValue)
    ensures !IsNaN(r)
    ensures r.Undefined? <==>
              || formatData.None?
              || !IsTruthyText(formatData.value.duration)
              || parseFloat(formatData.value.duration.value).NaN?
    ensures r.Number? ==> r.n == parseFloat(formatData.value.duration.value)
  {
    if formatData.None? || !IsTruthyText(formatData.value.duration) then Undefined
    else
      var parsed := parseFloat(formatData.value.duration.value);
      if parsed.NaN? then Undefined else Number(parsed)
  }

  /**
   * The duration a row shows: the integer part that `parseInt` reads from the
   * track's own duration, or else the file-level duration.
   */
  function RowDuration(stream: Stream, fileDuration: JsValue): (d: JsValue)
    ensures IsNaN(d) ==> IsNaN(fileDuration)
    ensures d == fileDuration || (d.Number? && d.n.Finite? && d.n.value == d.n.value.Floor as real)
    ensures ParseIntField(stream.duration).Some? ==> d == FromInt(ParseIntField(stream.duration).value)
    ensures ParseIntField(stream.duration).None? ==> d == fileDuration
  {
    match ParseIntField(stream.duration)
    case Some(seconds) => FromInt(seconds)
    case None => fileDuration
  }

  /** A track duration such as "12.500000" is cut to its whole seconds, 12. */
  lemma RowDurationTruncates(stream: Stream, seconds: int, fraction: string, fileDuration: JsValue)
    requires stream.duration == Some(IntToString(seconds) + "." + fraction)
    ensures RowDuration(stream, fileDuration) == FromInt(seconds)
  {
    ParseIntOfDecimalFraction(seconds, fraction);
  }

  /** A track without its own duration shows the file-level duration. */
  lemma RowDurationFallsBack(stream: Stream, fileDuration: JsValue)
    requires stream.duration.None?
    ensures RowDuration(stream, fileDuration) == fileDuration
  {
  }

  /** A track duration text with no digits after its white space and sign ("", "N/A") also falls back. */
  lemma RowDurationOfUnparsable(stream: Stream, text: string, fileDuration: JsValue)
    requires stream.duration == Some(text)
    requires NoLeadingDigit(Unsigned(TrimStart(text)))
    ensures RowDuration(stream, fileDuration) == fileDuration
  {
  }

  /**
   * The duration cell's guard `!Number.isNaN(duration)` always holds: the
   * file-level fallback is never NaN, so the cell is rendered even when the
   * duration is `undefined`.
   */
  lemma DurationCellAlwaysShown(stream: Stream, formatData: Option<FormatData>, parseFloat: string -> JsNumber)
    ensures !IsNaN(RowDuration(stream, GetFormatDuration(formatData, parseFloat)))
  {
  }

  /** The bits per second the bitrate cell is shown for, or `None` when the cell stays empty. */
  function Bitrate(stream: Stream): Option<int>
  {
    ParseIntField(stream.bitRate)
  }

  lemma BitrateOfText(stream: Stream, bitsPerSecond: int)
    requires stream.bitRate == Some(IntToString(bitsPerSecond))
    ensures Bitrate(stream) == Some(bitsPerSecond)
  {
    assert IntToString(bitsPerSecond) + "" == IntToString(bitsPerSecond);
    ParseIntOfIntToString(bitsPerSecond, "");
  }

  lemma BitrateOfAbsent(stream: Stream)
    requires stream.bitRate.None?
    ensures Bitrate(stream).None?
  {
  }

  /** The tag cell: the codec tag string, suppressed when the raw tag is "0x0000". */
  function TagText(stream: Stream): (tag: Option<string>)
    ensures tag.Some? <==> stream.codecTag != Some("0x0000") && stream.codecTagString.Some?
    ensures tag.Some? ==> tag == stream.codecTagString
  {
    if stream.codecTag == Some("0x0000") then None else stream.codecTagString
  }

  /** What React renders for a falsy number: nothing for `undefined`, the text "0" for 0. */
  function FalsyText(field: Option<int>): (text: string)
    requires !IsTruthyNumber(field)
    ensures field.None? ==> text == []
    ensures field.Some? ==> text == ['0']
  {
    if field.None? then "" else "0"
  }

  /**
   * The text of `width && height && `${width}x${height}``: the resolution when
   * both are truthy, otherwise what React renders for the first falsy one.
   */
  function ResolutionText(width: Option<int>, height: Option<int>): (text: string)
    ensures 'x' in text <==> IsTruthyNumber(width) && IsTruthyNumber(height)
    ensures !IsTruthyNumber(width) ==> text == FalsyText(width)
    ensures IsTruthyNumber(width) && !IsTruthyNumber(height) ==> text == FalsyText(height)
    ensures IsTruthyNumber(width) && IsTruthyNumber(height) ==>
              text == IntToString(width.value) + "x" + IntToString(height.value)
  {
    if !IsTruthyNumber(width) then FalsyText(width)
    else if !IsTruthyNumber(height) then FalsyText(height)
    else
      var w := IntToString(width.value);
      var text := w + "x" + IntToString(height.value);
      assert text[|w|] == 'x';
      text
  }

  /**
   * A shown resolution reads back, through `parseInt`, as the width, and the
   * text after its first `x` reads back as the height.
   */
  lemma ResolutionTextReadsBack(width: Option<int>, height: Option<int>)
    requires IsTruthyNumber(width) && IsTruthyNumber(height)
    ensures ParseInt(ResolutionText(width, height)) == width
    ensures var w := IntToString(width.value);
            ParseInt(ResolutionText(width, height)[|w| + 1..]) == height
  {
    var w := IntToString(width.value);
    var h := IntToString(height.value);
    Associative(w, "x", h);
    ParseIntOfIntToString(width.value, "x" + h);
    TextAfterSeparator(w, "x", h);
    ParseIntOfIntToString(height.value, "");
  }

  /** What follows a one-character separator is the text after it. */
  lemma TextAfterSeparator(a: string, sep: string, b: string)
    requires |sep| == 1
    ensures (a + sep + b)[|a| + 1..] == b + ""
  {
  }

  /** The text of `channels && `${channels}c``. */
  function ChannelsText(channels: Option<int>): (text: string)
    ensures 'c' in text <==> IsTruthyNumber(channels)
    ensures !IsTruthyNumber(channels) ==> text == FalsyText(channels)
    ensures IsTruthyNumber(channels) ==> text == IntToString(channels.value) + "c"
  {
    if !IsTruthyNumber(channels) then FalsyText(channels)
    else
      var n := IntToString(channels.value);
      var text := n + "c";
      assert text[|n|] == 'c';
      text
  }

  /** A shown channel count reads back, through `parseInt`, as the count. */
  lemma ChannelsTextReadsBack(channels: Option<int>)
    requires IsTruthyNumber(channels)
    ensures ParseInt(ChannelsText(channels)) == channels
  {
    ParseIntOfIntToString(channels.value, "c");
  }

  /** The icon in a row's first cell. */
  datatype Icon = FaVolumeUp | FaVolumeMute | FaVideo | FaVideoSlash | MdSubtitles | FaBan | GoFileBinary

  /** The icons shown for a track that is kept in the output. */
  predicate IsKeepIcon(icon: Icon)
  {
    icon.FaVolumeUp? || icon.FaVideo? || icon.MdSubtitles? || icon.GoFileBinary?
  }

  /** The icon for a track of the given codec type, kept (`copy`) or not. */
  function IconFor(codecType: Option<string>, copy: bool): (icon: Icon)
    ensures IsKeepIcon(icon) <==> copy
  {
    if codecType == Some("audio") then (if copy then FaVolumeUp else FaVolumeMute)
    else if codecType == Some("video") then (if copy then FaVideo else FaVideoSlash)
    else if codecType == Some("subtitle") then (if copy then MdSubtitles else FaBan)
    else (if copy then GoFileBinary else FaBan)
  }

  /** A dropped track shows a muted speaker, a crossed-out camera, or else a ban sign. */
  lemma IconOfDropped(codecType: Option<string>)
    ensures IconFor(codecType, false)
            == if codecType == Some("audio") then FaVolumeMute
               else if codecType == Some("video") then FaVideoSlash
               else FaBan
  {
  }

  /** A kept track shows a speaker, a camera, a subtitles sign, or else a binary-file sign. */
  lemma IconOfKept(codecType: Option<string>)
    ensures IconFor(codecType, true)
            == if codecType == Some("audio") then FaVolumeUp
               else if codecType == Some("video") then FaVideo
               else if codecType == Some("subtitle") then MdSubtitles
               else GoFileBinary
  {
  }

  /**
   * The icon tells whether the track is kept, and for a kept track it also
   * tells audio, video, subtitle and other apart.
   */
  lemma IconIdentifiesRow(t1: Option<string>, c1: bool, t2: Option<string>, c2: bool)
    requires IconFor(t1, c1) == IconFor(t2, c2)
    ensures c1 == c2
    ensures c1 ==> (t1 == Some("audio") <==> t2 == Some("audio"))
    ensures c1 ==> (t1 == Some("video") <==> t2 == Some("video"))
    ensures c1 ==> (t1 == Some("subtitle") <==> t2 == Some("subtitle"))
  {
  }

  /** The row's opacity style: unset for a kept track, 0.4 (dimmed) for a dropped one. */
  function Opacity(copy: bool): (opacity: Option<real>)
    ensures opacity.Some? <==> !copy
    ensures opacity.Some? ==> 0.0 < opacity.value < 1.0
    ensures !copy ==> opacity == Some(0.4)
  {
    if copy then None else Some(0.4)
  }

  /** Everything one track row shows, and the (file path, track index) its icon toggles. */
  datatype StreamRow = StreamRow(
    toggleTarget: (string, int),
    icon: Icon,
    opacity: Option<real>,
    index: int,
    codecType: Option<string>,
    tag: Option<string>,
    codecName: Option<string>,
    duration: JsValue,
    durationShown: bool,
    nbFrames: Option<string>,
    bitrate: Option<int>,
    resolution: string,
    channels: string,
    channelLayout: Option<string>)

  /**
   * The row for `stream` of the file at `path`, kept or not as `copy` says,
   * with `fileDuration` as the duration fallback. Clicking its icon calls
   * `toggleCopyStreamId(path, stream.index)`.
   */
  function RowOf(path: string, stream: Stream, copy: bool, fileDuration: JsValue): (row: StreamRow)
    ensures row.toggleTarget == (path, stream.index) && row.index == stream.index
    ensures IsKeepIcon(row.icon) <==> copy
    ensures row.opacity.Some? <==> !copy
    ensures !IsNaN(fileDuration) ==> row.durationShown
    ensures row.duration == RowDuration(stream, fileDuration) && (row.durationShown <==> !IsNaN(row.duration))
    ensures row.bitrate == Bitrate(stream) && row.tag == TagText(stream)
    ensures row.resolution == ResolutionText(stream.width, stream.height)
    ensures row.channels == ChannelsText(stream.channels)
    ensures row.icon == IconFor(stream.codecType, copy) && row.opacity == Opacity(copy)
  {
    var duration := RowDuration(stream, fileDuration);
    StreamRow(
      (path, stream.index),
      IconFor(stream.codecType, copy),
      Opacity(copy),
      stream.index,
      stream.codecType,
      TagText(stream),
      stream.codecName,
      duration,
      !IsNaN(duration),
      stream.nbFrames,
      Bitrate(stream),
      ResolutionText(stream.width, stream.height),
      ChannelsText(stream.channels),
      stream.channelLayout)
  }
}

=== FILE: StreamsSelector.dfy ===
/**
 * The track selector: the table body (the main file's header and tracks,
 * then each attached file's spacer, header and tracks), which optional
 * sections are shown, the longest/shortest control, and the state change
 * made by removing an attached file.
 */
module StreamsSelector {
  import opened Wrappers
  import opened JsNumbers
  import opened Streams
  import opened FileRows

  /** An attached file: its tracks and its format metadata. */
  datatype ExternalFile = ExternalFile(streams: seq<Stream>, formatData: Option<FormatData>)

  /** One key and value of the `externalFiles` object, in the object's key order. */
  datatype Entry = Entry(path: string, file: ExternalFile)

  /** The keys of a JavaScript object are distinct. */
  ghost predicate DistinctPaths(entries: seq<Entry>)
  {
    forall a, b :: 0 <= a < b < |entries| ==> entries[a].path != entries[b].path
  }

  function PathSet(entries: seq<Entry>): set<string>
  {
    set e | e in entries :: e.path
  }

  /** The `externalFiles` object as a map from path to file. */
  function AsMap(entries: seq<Entry>): map<string, ExternalFile>
  {
    if entries == [] then map[] else AsMap(entries[1..])[entries[0].path := entries[0].file]
  }

  /** `const { [path]: val, ...rest } = old`: every entry except the one for `path`, in order. */
  function WithoutPath(entries: seq<Entry>, path: string): seq<Entry>
  {
    if entries == [] then []
    else (if entries[0].path == path then [] else [entries[0]]) + WithoutPath(entries[1..], path)
  }

  /** The entries left are exactly those whose key is not `path`. */
  lemma {:induction false} WithoutPathMembers(entries: seq<Entry>, path: string)
    ensures forall e :: e in WithoutPath(entries, path) <==> e in entries && e.path != path
  {
    if entries != [] {
      WithoutPathMembers(entries[1..], path);
      assert forall e :: e in entries <==> e == entries[0] || e in entries[1..];
    }
  }

  /** Removing `path` from the object removes exactly that key from the map it stands for. */
  lemma {:induction false} WithoutPathAsMap(entries: seq<Entry>, path: string)
    ensures AsMap(WithoutPath(entries, path)) == AsMap(entries) - {path}
  {
    if entries != [] {
      var e := entries[0];
      var tail := entries[1..];
      WithoutPathAsMap(tail, path);
      RemoveAfterUpdate(AsMap(tail), e.path, e.file, path);
      if e.path != path {
        assert WithoutPath(entries, path) == [e] + WithoutPath(tail, path);
        assert ([e] + WithoutPath(tail, path))[1..] == WithoutPath(tail, path);
      } else {
        assert WithoutPath(entries, path) == WithoutPath(tail, path);
      }
    }
  }

  /** Setting a key and then removing `path` from the map. */
  lemma RemoveAfterUpdate(m: map<string, ExternalFile>, key: string, value: ExternalFile, path: string)
    ensures key != path ==> m[key := value] - {path} == (m - {path})[key := value]
    ensures key == path ==> m[key := value] - {path} == m - {path}
  {
  }

  /** Removing a path keeps the keys distinct. */
  lemma {:induction false} WithoutPathDistinct(entries: seq<Entry>, path: string)
    requires DistinctPaths(entries)
    ensures DistinctPaths(WithoutPath(entries, path))
  {
    if entries != [] {
      var e := entries[0];
      var tail := entries[1..];
      WithoutPathDistinct(tail, path);
      if e.path != path {
        var rest := WithoutPath(tail, path);
        WithoutPathMembers(tail, path);
        forall b | 0 <= b < |rest|
          ensures rest[b].path != e.path
        {
          assert rest[b] in rest;
          var a :| 0 <= a < |tail| && tail[a] == rest[b];
          assert entries[a + 1] == tail[a];
        }
        assert WithoutPath(entries, path) == [e] + rest;
      }
    }
  }

  /** Removing a path that is not a key changes nothing. */
  lemma {:induction false} WithoutAbsentPath(entries: seq<Entry>, path: string)
    requires path !in PathSet(entries)
    ensures WithoutPath(entries, path) == entries
  {
    if entries != [] {
      assert entries[0] in entries;
      assert forall e :: e in entries[1..] ==> e in entries;
      WithoutAbsentPath(entries[1..], path);
    }
  }

  lemma {:induction false} WithoutPathAppend(front: seq<Entry>, back: seq<Entry>, path: string)
    ensures WithoutPath(front + back, path) == WithoutPath(front, path) + WithoutPath(back, path)
  {
    if front != [] {
      assert (front + back)[1..] == front[1..] + back;
      WithoutPathAppend(front[1..], back, path);
    } else {
      assert front + back == back;
    }
  }

  lemma DistinctAround(before: seq<Entry>, e: Entry, after: seq<Entry>)
    requires DistinctPaths(before + [e] + after)
    ensures e.path !in PathSet(before) && e.path !in PathSet(after)
  {
    var all := before + [e] + after;
    assert all[|before|] == e;
    assert forall k :: 0 <= k < |before| ==> all[k] == before[k];
    assert forall k :: 0 <= k < |after| ==> all[|before| + 1 + k] == after[k];
  }

  /**
   * With distinct keys, removing the key of one entry deletes that entry and
   * keeps all the others in their order.
   */
  lemma WithoutPathRemovesOne(before: seq<Entry>, e: Entry, after: seq<Entry>)
    requires DistinctPaths(before + [e] + after)
    ensures WithoutPath(before + [e] + after, e.path) == before + after
  {
    DistinctAround(before, e, after);
    WithoutAbsentPath(before, e.path);
    WithoutAbsentPath(after, e.path);
    WithoutPathAppend(before + [e], after, e.path);
    WithoutPathAppend(before, [e], e.path);
    assert WithoutPath([e], e.path) == [] by {
      assert [e][1..] == [];
    }
    assert WithoutPath(before + [e], e.path) == before;
    assert WithoutPath(before + [e] + after, e.path) == before + after;
  }

  /** The selector's inputs that this model reads. */
  datatype Props = Props(
    mainFilePath: string,
    mainFileFormatData: Option<FormatData>,
    /** `existingStreams`; `None` when it is falsy (an array, even an empty one, is truthy). */
    streams: Option<seq<Stream>>,
    externalFiles: seq<Entry>,
    shortestFlag: bool,
    nonCopiedExtraStreams: seq<Stream>)

  /** A row of the table body. */
  datatype BodyRow =
    | FileHeader(title: string, caption: string, trashTarget: Option<string>)
    | Spacer
    | TrackRow(row: StreamRow)

  /** What the selector shows. */
  datatype View = View(
    body: seq<BodyRow>,
    /** The displayed value of the longest/shortest control, when the control is shown. */
    lengthControl: Option<string>,
    /** Whether the discard-or-extract prompt is shown. */
    discardPrompt: bool,
    /** Whether "Export each track as individual files" is shown. */
    exportEachTrack: bool)

  /** The values of the longest/shortest control, in display order. */
  const LengthOptions: seq<string> := ["longest", "shortest"]

  /** The control's displayed value for the current flag. */
  function LengthControlValue(shortestFlag: bool): (value: string)
    ensures value in LengthOptions
    ensures value == "shortest" <==> shortestFlag
  {
    if shortestFlag then "shortest" else "longest"
  }

  /**
   * The flag that choosing `value` in the control sets; for either option,
   * displaying that flag shows the option chosen.
   */
  function ShortestFlagOf(value: string): (shortestFlag: bool)
    ensures value in LengthOptions ==> LengthControlValue(shortestFlag) == value
  {
    value == "shortest"
  }

  /** Displaying the flag and choosing the displayed option keeps the flag. */
  lemma LengthControlReadsBack(shortestFlag: bool)
    ensures ShortestFlagOf(LengthControlValue(shortestFlag)) == shortestFlag
  {
  }

  /** The rows of `streams`, which belong to the file at `path`, in array order. */
  function TrackRows(path: string, streams: seq<Stream>, fileDuration: JsValue,
                     isCopying: (string, int) -> bool): (rows: seq<BodyRow>)
    ensures |rows| == |streams|
    ensures forall k :: 0 <= k < |rows| ==>
              rows[k] == TrackRow(RowOf(path, streams[k], isCopying(path, streams[k].index), fileDuration))
  {
    if streams == [] then []
    else
      var s := streams[0];
      [TrackRow(RowOf(path, s, isCopying(path, s.index), fileDuration))]
      + TrackRows(path, streams[1..], fileDuration, isCopying)
  }

  /** A file's header row followed by its track rows; only attached files get a trash button. */
  function FileSection(path: string, streams: seq<Stream>, formatData: Option<FormatData>, removable: bool,
                       isCopying: (string, int) -> bool, parseFloat: string -> JsNumber): (rows: seq<BodyRow>)
    ensures |rows| == 1 + |streams|
    ensures rows[0].FileHeader? && rows[0].title == path && rows[0].caption == Basename(path)
    ensures rows[0].trashTarget.Some? <==> removable
    ensures forall k :: 1 <= k < |rows| ==> rows[k].TrackRow? && rows[k].row.toggleTarget.0 == path
    ensures forall k :: 0 <= k < |streams| ==>
              rows[k + 1] == TrackRow(RowOf(path, streams[k], isCopying(path, streams[k].index),
                                            GetFormatDuration(formatData, parseFloat)))
  {
    [FileHeader(path, Basename(path), if removable then Some(path) else None)]
    + TrackRows(path, streams, GetFormatDuration(formatData, parseFloat), isCopying)
  }

  /** For each attached file, in key order: a spacer row and its section. */
  function ExternalSections(entries: seq<Entry>, isCopying: (string, int) -> bool,
                            parseFloat: string -> JsNumber): (rows: seq<BodyRow>)
    ensures ShownRows(rows) == EntryRows(entries, isCopying, parseFloat)
  {
    if entries == [] then []
    else
      var e := entries[0];
      var part := [Spacer] + FileSection(e.path, e.file.streams, e.file.formatData, true, isCopying, parseFloat);
      var rest := ExternalSections(entries[1..], isCopying, parseFloat);
      ExternalSectionShown(e, isCopying, parseFloat);
      ShownRowsAppend(part, rest);
      part + rest
  }

  /**
   * The selector: nothing when `existingStreams` is falsy; otherwise the
   * table body and the optional sections.
   */
  function Render(props: Props, isCopying: (string, int) -> bool, parseFloat: string -> JsNumber): (view: Option<View>)
    ensures view.None? <==> props.streams.None?
    ensures view.Some? ==> (view.value.lengthControl.Some? <==> |props.externalFiles| > 0)
    ensures view.Some? ==> (view.value.exportEachTrack <==> |props.externalFiles| == 0)
    ensures view.Some? ==> (view.value.discardPrompt <==> |props.nonCopiedExtraStreams| > 0)
    ensures view.Some? && view.value.lengthControl.Some? ==>
              (view.value.lengthControl.value == "shortest" <==> props.shortestFlag)
    ensures view.Some? ==> |view.value.body| > 0 && view.value.body[0] == FileHeader(props.mainFilePath, Basename(props.mainFilePath), None)
    ensures view.Some? ==>
              ShownRows(view.value.body)
              == FileRowsOf(props.mainFilePath, props.streams.value, props.mainFileFormatData, isCopying, parseFloat)
                 + EntryRows(props.externalFiles, isCopying, parseFloat)
  {
    if props.streams.None? then None
    else
      var main := FileSection(props.mainFilePath, props.streams.value, props.mainFileFormatData, false, isCopying, parseFloat);
      var ext := ExternalSections(props.externalFiles, isCopying, parseFloat);
      FileSectionShown(props.mainFilePath, props.streams.value, props.mainFileFormatData, false, isCopying, parseFloat);
      ShownRowsAppend(main, ext);
      var body := main + ext;
      Some(View(
        body,
        if |props.externalFiles| > 0 then Some(LengthControlValue(props.shortestFlag)) else None,
        |props.nonCopiedExtraStreams| > 0,
        |props.externalFiles| == 0))
  }

  /** The (path, index) pairs the track rows of `body` toggle, top to bottom. */
  function Targets(body: seq<BodyRow>): seq<(string, int)>
  {
    if body == [] then []
    else (if body[0].TrackRow? then [body[0].row.toggleTarget] else []) + Targets(body[1..])
  }

  /** The paths the trash buttons of `body` remove, top to bottom. */
  function TrashTargets(body: seq<BodyRow>): seq<string>
  {
    if body == [] then []
    else (if body[0].FileHeader? && body[0].trashTarget.Some? then [body[0].trashTarget.value] else [])
         + TrashTargets(body[1..])
  }

  /** The pair each of a file's tracks should toggle: that file's path and the track's own index. */
  function StreamTargets(path: string, streams: seq<Stream>): seq<(string, int)>
  {
    if streams == [] then [] else [(path, streams[0].index)] + StreamTargets(path, streams[1..])
  }

  /** The k-th track of a file toggles that file's path and the k-th track's own index. */
  lemma {:induction false} StreamTargetsAt(path: string, streams: seq<Stream>, k: int)
    requires 0 <= k < |streams|
    ensures |StreamTargets(path, streams)| == |streams|
    ensures StreamTargets(path, streams)[k] == (path, streams[k].index)
  {
    if k > 0 {
      StreamTargetsAt(path, streams[1..], k - 1);
    } else if |streams| > 1 {
      StreamTargetsAt(path, streams[1..], 0);
    }
  }

  lemma {:induction false} StreamTargetsPath(path: string, streams: seq<Stream>, t: (string, int))
    requires t in StreamTargets(path, streams)
    ensures t.0 == path
  {
    if t !in [(path, streams[0].index)] {
      StreamTargetsPath(path, streams[1..], t);
    }
  }

  /** The pairs of all attached files' tracks: files in key order, tracks in array order. */
  function EntryTargets(entries: seq<Entry>): seq<(string, int)>
  {
    if entries == [] then []
    else StreamTargets(entries[0].path, entries[0].file.streams) + EntryTargets(entries[1..])
  }

  /** The keys of the `externalFiles` object, in order. */
  function Paths(entries: seq<Entry>): seq<string>
  {
    if entries == [] then [] else [entries[0].path] + Paths(entries[1..])
  }

  /** The ordered keys and the key set hold the same paths. */
  lemma {:induction false} PathsMatchPathSet(entries: seq<Entry>, path: string)
    ensures path in Paths(entries) <==> path in PathSet(entries)
  {
    if entries != [] {
      PathsMatchPathSet(entries[1..], path);
      assert entries == [entries[0]] + entries[1..];
      assert PathSet(entries) == {entries[0].path} + PathSet(entries[1..]);
    }
  }

  /** A track row is consistent with the registry when its icon, opacity and duration cell agree with it. */
  ghost predicate RowShowsRegistry(r: BodyRow, isCopying: (string, int) -> bool)
  {
    r.TrackRow? ==>
      && (IsKeepIcon(r.row.icon) <==> isCopying(r.row.toggleTarget.0, r.row.toggleTarget.1))
      && (r.row.opacity.Some? <==> !isCopying(r.row.toggleTarget.0, r.row.toggleTarget.1))
      && r.row.durationShown
  }

  ghost predicate BodyShowsRegistry(body: seq<BodyRow>, isCopying: (string, int) -> bool)
  {
    forall k :: 0 <= k < |body| ==> RowShowsRegistry(body[k], isCopying)
  }

  lemma {:induction false} TargetsAppend(a: seq<BodyRow>, b: seq<BodyRow>)
    ensures Targets(a + b) == Targets(a) + Targets(b)
  {
    if a != [] {
      assert (a + b)[1..] == a[1..] + b;
      TargetsAppend(a[1..], b);
    } else {
      assert a + b == b;
    }
  }

  lemma {:induction false} TrashTargetsAppend(a: seq<BodyRow>, b: seq<BodyRow>)
    ensures TrashTargets(a + b) == TrashTargets(a) + TrashTargets(b)
  {
    if a != [] {
      assert (a + b)[1..] == a[1..] + b;
      TrashTargetsAppend(a[1..], b);
    } else {
      assert a + b == b;
    }
  }

  lemma BodyShowsRegistryAppend(a: seq<BodyRow>, b: seq<BodyRow>, isCopying: (string, int) -> bool)
    requires BodyShowsRegistry(a, isCopying) && BodyShowsRegistry(b, isCopying)
    ensures BodyShowsRegistry(a + b, isCopying)
  {
    forall k | 0 <= k < |a + b|
      ensures RowShowsRegistry((a + b)[k], isCopying)
    {
      if k < |a| {
        assert (a + b)[k] == a[k];
      } else {
        assert (a + b)[k] == b[k - |a|];
      }
    }
  }

  lemma {:induction false} TrackRowsTargets(path: string, streams: seq<Stream>, fileDuration: JsValue,
                                            isCopying: (string, int) -> bool)
    ensures Targets(TrackRows(path, streams, fileDuration, isCopying)) == StreamTargets(path, streams)
  {
    if streams != [] {
      var s := streams[0];
      var head := [TrackRow(RowOf(path, s, isCopying(path, s.index), fileDuration))];
      var rest := TrackRows(path, streams[1..], fileDuration, isCopying);
      TrackRowsTargets(path, streams[1..], fileDuration, isCopying);
      TargetsAppend(head, rest);
      assert Targets(head) == [(path, s.index)];
      assert StreamTargets(path, streams) == [(path, s.index)] + StreamTargets(path, streams[1..]);
    }
  }

  lemma {:induction false} TrackRowsNoTrash(path: string, streams: seq<Stream>, fileDuration: JsValue,
                                            isCopying: (string, int) -> bool)
    ensures TrashTargets(TrackRows(path, streams, fileDuration, isCopying)) == []
  {
    if streams != [] {
      var s := streams[0];
      var head := [TrackRow(RowOf(path, s, isCopying(path, s.index), fileDuration))];
      var rest := TrackRows(path, streams[1..], fileDuration, isCopying);
      TrackRowsNoTrash(path, streams[1..], fileDuration, isCopying);
      TrashTargetsAppend(head, rest);
    }
  }

  lemma {:induction false} TrackRowsShowRegistry(path: string, streams: seq<Stream>, fileDuration: JsValue,
                                                 isCopying: (string, int) -> bool)
    requires !IsNaN(fileDuration)
    ensures BodyShowsRegistry(TrackRows(path, streams, fileDuration, isCopying), isCopying)
  {
    if streams != [] {
      var s := streams[0];
      var head := [TrackRow(RowOf(path, s, isCopying(path, s.index), fileDuration))];
      var rest := TrackRows(path, streams[1..], fileDuration, isCopying);
      TrackRowsShowRegistry(path, streams[1..], fileDuration, isCopying);
      assert RowShowsRegistry(head[0], isCopying);
      BodyShowsRegistryAppend(head, rest, isCopying);
    }
  }

  lemma FileSectionFacts(path: string, streams: seq<Stream>, formatData: Option<FormatData>, removable: bool,
                         isCopying: (string, int) -> bool, parseFloat: string -> JsNumber)
    ensures Targets(FileSection(path, streams, formatData, removable, isCopying, parseFloat))
            == StreamTargets(path, streams)
    ensures TrashTargets(FileSection(path, streams, formatData, removable, isCopying, parseFloat))
            == if removable then [path] else []
    ensures BodyShowsRegistry(FileSection(path, streams, formatData, removable, isCopying, parseFloat), isCopying)
  {
    var fileDuration := GetFormatDuration(formatData, parseFloat);
    var header := [FileHeader(path, Basename(path), if removable then Some(path) else None)];
    var rows := TrackRows(path, streams, fileDuration, isCopying);
    TrackRowsTargets(path, streams, fileDuration, isCopying);
    TrackRowsNoTrash(path, streams, fileDuration, isCopying);
    TrackRowsShowRegistry(path, streams, fileDuration, isCopying);
    TargetsAppend(header, rows);
    TrashTargetsAppend(header, rows);
    BodyShowsRegistryAppend(header, rows, isCopying);
  }

  /** One attached file's part of the body: a spacer row and its section. */
  lemma ExternalSectionFacts(e: Entry, isCopying: (string, int) -> bool, parseFloat: string -> JsNumber)
    ensures var part := [Spacer] + FileSection(e.path, e.file.streams, e.file.formatData, true, isCopying, parseFloat);
            && Targets(part) == StreamTargets(e.path, e.file.streams)
            && TrashTargets(part) == [e.path]
            && BodyShowsRegistry(part, isCopying)
  {
    var section := FileSection(e.path, e.file.streams, e.file.formatData, true, isCopying, parseFloat);
    FileSectionFacts(e.path, e.file.streams, e.file.formatData, true, isCopying, parseFloat);
    TargetsAppend([Spacer], section);
    TrashTargetsAppend([Spacer], section);
    BodyShowsRegistryAppend([Spacer], section, isCopying);
  }

  lemma {:induction false} ExternalSectionsTargets(entries: seq<Entry>, isCopying: (string, int) -> bool,
                                                   parseFloat: string -> JsNumber)
    ensures Targets(ExternalSections(entries, isCopying, parseFloat)) == EntryTargets(entries)
  {
    if entries != [] {
      var e := entries[0];
      var part := [Spacer] + FileSection(e.path, e.file.streams, e.file.formatData, true, isCopying, parseFloat);
      var rest := ExternalSections(entries[1..], isCopying, parseFloat);
      ExternalSectionFacts(e, isCopying, parseFloat);
      ExternalSectionsTargets(entries[1..], isCopying, parseFloat);
      assert ExternalSections(entries, isCopying, parseFloat) == part + rest;
      TargetsAppend(part, rest);
    }
  }

  lemma {:induction false} ExternalSectionsTrash(entries: seq<Entry>, isCopying: (string, int) -> bool,
                                                 parseFloat: string -> JsNumber)
    ensures TrashTargets(ExternalSections(entries, isCopying, parseFloat)) == Paths(entries)
  {
    if entries != [] {
      var e := entries[0];
      var part := [Spacer] + FileSection(e.path, e.file.streams, e.file.formatData, true, isCopying, parseFloat);
      var rest := ExternalSections(entries[1..], isCopying, parseFloat);
      ExternalSectionFacts(e, isCopying, parseFloat);
      ExternalSectionsTrash(entries[1..], isCopying, parseFloat);
      assert ExternalSections(entries, isCopying, parseFloat) == part + rest;
      TrashTargetsAppend(part, rest);
      assert Paths(entries) == [e.path] + Paths(entries[1..]);
    }
  }

  lemma {:induction false} ExternalSectionsShowRegistry(entries: seq<Entry>, isCopying: (string, int) -> bool,
                                                        parseFloat: string -> JsNumber)
    ensures BodyShowsRegistry(ExternalSections(entries, isCopying, parseFloat), isCopying)
  {
    if entries != [] {
      var e := entries[0];
      var part := [Spacer] + FileSection(e.path, e.file.streams, e.file.formatData, true, isCopying, parseFloat);
      var rest := ExternalSections(entries[1..], isCopying, parseFloat);
      ExternalSectionFacts(e, isCopying, parseFloat);
      ExternalSectionsShowRegistry(entries[1..], isCopying, parseFloat);
      assert ExternalSections(entries, isCopying, parseFloat) == part + rest;
      BodyShowsRegistryAppend(part, rest, isCopying);
    }
  }

  /**
   * Row order and toggle targeting: the main file's tracks come first, then
   * each attached file's tracks in key order, each file's tracks in array
   * order; clicking a track row toggles that file's path and that track's
   * index. The trash buttons, one per attached file in key order, remove
   * that file's own path; the main file has none.
   */
  lemma RowOrderAndTargets(props: Props, isCopying: (string, int) -> bool, parseFloat: string -> JsNumber)
    requires props.streams.Some?
    ensures Targets(Render(props, isCopying, parseFloat).value.body)
            == StreamTargets(props.mainFilePath, props.streams.value) + EntryTargets(props.externalFiles)
    ensures TrashTargets(Render(props, isCopying, parseFloat).value.body) == Paths(props.externalFiles)
  {
    var main := FileSection(props.mainFilePath, props.streams.value, props.mainFileFormatData, false, isCopying, parseFloat);
    var ext := ExternalSections(props.externalFiles, isCopying, parseFloat);
    FileSectionFacts(props.mainFilePath, props.streams.value, props.mainFileFormatData, false, isCopying, parseFloat);
    ExternalSectionsTargets(props.externalFiles, isCopying, parseFloat);
    ExternalSectionsTrash(props.externalFiles, isCopying, parseFloat);
    TargetsAppend(main, ext);
    TrashTargetsAppend(main, ext);
  }

  /**
   * Every track row shows the registry's flag for its own (path, index): the
   * keep icon and full opacity exactly when it is copied; and every track
   * row has its duration cell.
   */
  lemma RowsShowRegistry(props: Props, isCopying: (string, int) -> bool, parseFloat: string -> JsNumber)
    requires props.streams.Some?
    ensures BodyShowsRegistry(Render(props, isCopying, parseFloat).value.body, isCopying)
  {
    var main := FileSection(props.mainFilePath, props.streams.value, props.mainFileFormatData, false, isCopying, parseFloat);
    var ext := ExternalSections(props.externalFiles, isCopying, parseFloat);
    FileSectionFacts(props.mainFilePath, props.streams.value, props.mainFileFormatData, false, isCopying, parseFloat);
    ExternalSectionsShowRegistry(props.externalFiles, isCopying, parseFloat);
    assert Render(props, isCopying, parseFloat).value.body == main + ext;
    BodyShowsRegistryAppend(main, ext, isCopying);
  }

  /** The cells of the track rows of `body`, top to bottom. */
  function ShownRows(body: seq<BodyRow>): seq<StreamRow>
  {
    if body == [] then []
    else (if body[0].TrackRow? then [body[0].row] else []) + ShownRows(body[1..])
  }

  /**
   * The rows a file's tracks should show, in array order: the k-th is the row
   * of the k-th stream, toggling (path, index), kept as the registry says, and
   * falling back to that file's own `getFormatDuration`.
   */
  function FileRowsOf(path: string, streams: seq<Stream>, formatData: Option<FormatData>,
                      isCopying: (string, int) -> bool, parseFloat: string -> JsNumber): seq<StreamRow>
  {
    seq(|streams|, k requires 0 <= k < |streams| =>
      RowOf(path, streams[k], isCopying(path, streams[k].index), GetFormatDuration(formatData, parseFloat)))
  }

  /** The rows all attached files should show: files in key order, each with its own format data. */
  function EntryRows(entries: seq<Entry>, isCopying: (string, int) -> bool,
                     parseFloat: string -> JsNumber): seq<StreamRow>
  {
    if entries == [] then []
    else FileRowsOf(entries[0].path, entries[0].file.streams, entries[0].file.formatData, isCopying, parseFloat)
         + EntryRows(entries[1..], isCopying, parseFloat)
  }

  lemma {:induction false} ShownRowsAppend(a: seq<BodyRow>, b: seq<BodyRow>)
    ensures ShownRows(a + b) == ShownRows(a) + ShownRows(b)
  {
    if a != [] {
      assert (a + b)[1..] == a[1..] + b;
      ShownRowsAppend(a[1..], b);
    } else {
      assert a + b == b;
    }
  }

  /** A body made of track rows only shows exactly their cells. */
  lemma {:induction false} ShownRowsOfTrackRows(rows: seq<BodyRow>)
    requires forall k :: 0 <= k < |rows| ==> rows[k].TrackRow?
    ensures |ShownRows(rows)| == |rows|
    ensures forall k :: 0 <= k < |rows| ==> ShownRows(rows)[k] == rows[k].row
  {
    if rows != [] {
      ShownRowsOfTrackRows(rows[1..]);
      assert ShownRows(rows) == [rows[0].row] + ShownRows(rows[1..]);
    }
  }

  /** A file's section shows the rows of its own streams with its own `getFormatDuration`. */
  lemma FileSectionShown(path: string, streams: seq<Stream>, formatData: Option<FormatData>, removable: bool,
                         isCopying: (string, int) -> bool, parseFloat: string -> JsNumber)
    ensures ShownRows(FileSection(path, streams, formatData, removable, isCopying, parseFloat))
            == FileRowsOf(path, streams, formatData, isCopying, parseFloat)
  {
    var header := [FileHeader(path, Basename(path), if removable then Some(path) else None)];
    var rows := TrackRows(path, streams, GetFormatDuration(formatData, parseFloat), isCopying);
    ShownRowsOfTrackRows(rows);
    ShownRowsAppend(header, rows);
    assert ShownRows(header) == [];
  }

  /** One attached file's part of the body shows that file's own rows. */
  lemma ExternalSectionShown(e: Entry, isCopying: (string, int) -> bool, parseFloat: string -> JsNumber)
    ensures ShownRows([Spacer] + FileSection(e.path, e.file.streams, e.file.formatData, true, isCopying, parseFloat))
            == FileRowsOf(e.path, e.file.streams, e.file.formatData, isCopying, parseFloat)
  {
    var section := FileSection(e.path, e.file.streams, e.file.formatData, true, isCopying, parseFloat);
    FileSectionShown(e.path, e.file.streams, e.file.formatData, true, isCopying, parseFloat);
    ShownRowsAppend([Spacer], section);
  }

  lemma {:induction false} EntryTargetsPaths(entries: seq<Entry>, t: (string, int))
    requires t in EntryTargets(entries)
    ensures t.0 in PathSet(entries)
  {
    var head := StreamTargets(entries[0].path, entries[0].file.streams);
    assert EntryTargets(entries) == head + EntryTargets(entries[1..]);
    if t in head {
      StreamTargetsPath(entries[0].path, entries[0].file.streams, t);
      assert entries[0] in entries;
    } else {
      EntryTargetsPaths(entries[1..], t);
      var e :| e in entries[1..] && e.path == t.0;
      assert e in entries;
    }
  }

  lemma WithoutPathPathSet(entries: seq<Entry>, path: string)
    ensures path !in PathSet(WithoutPath(entries, path))
  {
    WithoutPathMembers(entries, path);
  }

  /**
   * After an attached file is removed, no track row toggles its path (unless
   * it is also the main file's path) and no trash button names it.
   */
  lemma RemovedFileLeavesNoRows(props: Props, path: string, isCopying: (string, int) -> bool,
                                parseFloat: string -> JsNumber)
    requires props.streams.Some? && path != props.mainFilePath
    ensures var view := Render(props.(externalFiles := WithoutPath(props.externalFiles, path)), isCopying, parseFloat).value;
            && (forall t :: t in Targets(view.body) ==> t.0 != path)
            && path !in TrashTargets(view.body)
  {
    var rest := WithoutPath(props.externalFiles, path);
    var after := props.(externalFiles := rest);
    RowOrderAndTargets(after, isCopying, parseFloat);
    WithoutPathPathSet(props.externalFiles, path);
    var main := StreamTargets(props.mainFilePath, props.streams.value);
    forall t | t in main + EntryTargets(rest)
      ensures t.0 != path
    {
      if t in main {
        StreamTargetsPath(props.mainFilePath, props.streams.value, t);
      } else {
        EntryTargetsPaths(rest, t);
      }
    }
    PathsMatchPathSet(rest, path);
  }

  /**
   * Removing the last attached file hides the longest/shortest control and
   * shows "Export each track" again.
   */
  lemma RemovingLastFileRestoresExport(props: Props, e: Entry, isCopying: (string, int) -> bool,
                                       parseFloat: string -> JsNumber)
    requires props.streams.Some? && props.externalFiles == [e]
    ensures var view := Render(props.(externalFiles := WithoutPath(props.externalFiles, e.path)), isCopying, parseFloat).value;
            view.lengthControl.None? && view.exportEachTrack
  {
    WithoutPathRemovesOne([], e, []);
    assert [] + [e] + [] == [e];
  }

  /** The state that the selector reads and that removing a file and choosing a length policy write. */
  class SelectorState {
    /** Per file path, the copy flags by track index: the registry behind `isCopyingStreamId`. */
    var copyStreamIdsByPath: map<string, map<int, bool>>
    /** The attached files, in key order. */
    var externalFiles: seq<Entry>
    var shortestFlag: bool

    ghost predicate Valid()
      reads this
    {
      DistinctPaths(externalFiles)
    }

    constructor (copyStreamIds: map<string, map<int, bool>>, files: seq<Entry>, shortest: bool)
      requires DistinctPaths(files)
      ensures Valid()
      ensures copyStreamIdsByPath == copyStreamIds && externalFiles == files && shortestFlag == shortest
    {
      copyStreamIdsByPath := copyStreamIds;
      externalFiles := files;
      shortestFlag := shortest;
    }

    /**
     * `removeFile(path)`: the path's copy flags become the empty object and its
     * key leaves `externalFiles`; every other file keeps its entry, in order.
     */
    method RemoveFile(path: string)
      requires Valid()
      modifies this
      ensures Valid()
      ensures copyStreamIdsByPath == old(copyStreamIdsByPath)[path := map[]]
      ensures externalFiles == WithoutPath(old(externalFiles), path)
      ensures AsMap(externalFiles) == AsMap(old(externalFiles)) - {path}
      ensures forall k :: 0 <= k < |old(externalFiles)| && old(externalFiles)[k].path == path ==>
                externalFiles == old(externalFiles)[..k] + old(externalFiles)[k + 1..]
      ensures path !in PathSet(old(externalFiles)) ==> externalFiles == old(externalFiles)
      ensures shortestFlag == old(shortestFlag)
    {
      WithoutPathAsMap(externalFiles, path);
      WithoutPathDistinct(externalFiles, path);
      forall k | 0 <= k < |externalFiles| && externalFiles[k].path == path
        ensures WithoutPath(externalFiles, path) == externalFiles[..k] + externalFiles[k + 1..]
      {
        var e := externalFiles[k];
        assert externalFiles[..k] + [e] + externalFiles[k + 1..] == externalFiles;
        WithoutPathRemovesOne(externalFiles[..k], e, externalFiles[k + 1..]);
      }
      if path !in PathSet(externalFiles) {
        WithoutAbsentPath(externalFiles, path);
      }
      copyStreamIdsByPath := copyStreamIdsByPath[path := map[]];
      externalFiles := WithoutPath(externalFiles, path);
    }

    /** The control's `onChange(value)`: `setShortestFlag(value === 'shortest')`. */
    method ChooseLengthOption(value: string)
      requires Valid()
      modifies this
      ensures Valid()
      ensures shortestFlag == ShortestFlagOf(value)
      ensures value in LengthOptions ==> LengthControlValue(shortestFlag) == value
      ensures copyStreamIdsByPath == old(copyStreamIdsByPath) && externalFiles == old(externalFiles)
    {
      shortestFlag := ShortestFlagOf(value);
    }
  }
}

=== FILE: Wrappers.dfy ===
/** Optional values: a JavaScript field or result that may be `undefined`. */
module Wrappers {

  datatype Option<+T> = None | Some(value: T)
}
